=== FILE: README.md ===
# Lucky wheel engine — a Dafny model

This project models the logic of a browser "lucky wheel": the `WheelManager`
engine of `scripts/wheel.js` and the pure list operations of `UIManager` in
`scripts/ui.js` that feed it.

The engine keeps these fields:
- the names on the wheel, one slot each, in order;
- the cumulative rotation in degrees;
- a spinning flag;
- a secret *rigged order* of names that must win first;
- the set of rigged names that have already won (the *tracker*).

A spin picks a slot in one of two ways. The rigged pass picks the first rigged name that has not won yet and is on the wheel. When the wheel holds exactly four names including "An", the rigged order is replaced by `["An"]` for that pass. If no rigged name qualifies, the slot is left to chance. The wheel then turns forward six full turns plus the distance to a random point inside the winning slot.

The model is functional:
- `Wheel.Engine` is an immutable record, and every operation is a pure function from state to state.
- Each `Math.random()` draw is a parameter `u` in [0, 1).
- Angles are exact `real`s.
- The editor's entry list is a `seq<Item>`, and its textarea is a `string`.

Modules:
- `Angles`: `x mod 360`, the two normalisation loops, JavaScript's `%`.
- `Rotation`: the rotation calculator (scripts/wheel.js:144-164).
- `Selection`: the rigged pass and the random fallback (scripts/wheel.js:111-138).
- `Wheel`: the engine state and its operations, session traces and scenarios.
- `Shuffle`: the Fisher-Yates shuffle shared by the palette and the entry list.
- `Text`: `trim`, `split`/`join` on line feeds, the textarea parser, decimal ids.
- `Items`: the entry-list operations of `UIManager`.
- `Seqs`, `Wrappers`: generic `filter`/`map`/`splice` and `Option`.

Behaviour of the code worth knowing, which the model keeps:
- After a rigged win, the next spin with no eligible rigged name draws uniformly over all slots (scripts/wheel.js:135-138). The name that just won can win again by chance; `Wheel.RiggedThenChance` exhibits the case.
- The tracker is never cleared because a rigged order that was fully on the wheel stops being so. The test at scripts/wheel.js:88 clears only when the order becomes fully present, a case the clearing at line 80 already covers.
- `reset` is not the only way the rotation returns to 0: the list becoming empty zeroes it too (scripts/wheel.js:19-24).

## Model

| member | source | states |
|---|---|---|
| `Angles.WrapUp` | scripts/wheel.js:153 | the first loop lifts a negative angle by whole turns into [0, 360), leaves a non-negative one alone, and keeps it congruent mod 360 |
| `Angles.WrapDown` | scripts/wheel.js:154 | the second loop lowers an angle of 360 or more by whole turns below 360, keeping a non-negative value non-negative, and leaves a smaller one alone |
| `Angles.Normalize` | scripts/wheel.js:152-154 | the two loops together yield exactly the reference remainder `x - 360*floor(x/360)`, a value in [0, 360) |
| `Angles.NormalizeNegated` | scripts/wheel.js:150-154 | for an aim point strictly inside (0, 360) the first loop runs once and the second not at all, so the target is `360 - point` |
| `Angles.JsRem360` | scripts/wheel.js:157 | JavaScript's `%` keeps the sign of the dividend; on a non-negative rotation it is the reference remainder |
| `Rotation.SegmentCenter` | scripts/wheel.js:144-145 | the centre of a slot lies strictly between the slot's two edges |
| `Rotation.RandomOffset` | scripts/wheel.js:146 | for a draw in [0, 1) the jitter is at least -0.3 and below 0.3 of a slot width |
| `Rotation.LandingPoint` | scripts/wheel.js:144-146 | the aim point is within 0.3 of a slot width of the slot centre |
| `Rotation.ForwardDelta` | scripts/wheel.js:157-163 | the extra rotation is never negative, below two turns, and below one turn from a non-negative rotation |
| `Rotation.ForwardTurns` | scripts/wheel.js:157-164 | from a non-negative rotation, six turns plus the extra rotation end a whole number of turns past the target |
| `Rotation.SegmentAngle` | scripts/wheel.js:111 | each of the n slots spans 360/n degrees, and n of them fill the circle |
| `Rotation.LandingInsideSlot` | scripts/wheel.js:144-146 | slot centre plus jitter stays within 0.3 of a slot width of the centre, hence strictly inside the slot and inside (0, 360) |
| `Rotation.TargetRotation` | scripts/wheel.js:150-154 | the normalised target angle lies in [0, 360) and equals 360 minus the landing point |
| `Rotation.NextRotation` | scripts/wheel.js:156-164 | the new rotation is at least six turns ahead; from a non-negative rotation it is less than seven turns ahead, its remainder mod 360 is the target, and the landing point and the winning slot sit under the pointer |
| `Rotation.LandsOnTarget` | scripts/wheel.js:157-164 | six turns plus the forward delta ends on the target angle mod 360, and the slot under the pointer is the chosen one |
| `Selection.ActiveOrder` | scripts/wheel.js:117-120 | with four names including "An" the scan covers only "An", which is on the wheel; otherwise it covers the stored rigged order |
| `Selection.FirstEligible` | scripts/wheel.js:122-134 | the scan returns the first index of the order whose name has not won and is on the wheel; no earlier index qualifies, and none at all when it finds nothing |
| `Selection.Positions` | scripts/wheel.js:128-129 | the collected indices are exactly the slots holding the rigged name, in increasing order |
| `Selection.PickIndex` | scripts/wheel.js:130-136 | `floor(u * n)` with `u` in [0, 1) is an index below n, and slot `i` is drawn exactly when `u * n` lies in [i, i + 1) |
| `Selection.Choose` | scripts/wheel.js:115-138 | the chosen slot holds the chosen name; a rigged choice is the first eligible name of the active order (`["An"]` for four names including "An"), placed at the slot `floor(u * m)` of that name's m slots listed in increasing order; otherwise no name of that order is eligible and the slot is `floor(u * n)` |
| `Wheel.SegmentColor` | scripts/wheel.js:168 | the colour of a slot is an entry of the fixed palette |
| `Wheel.ColorPeriodic` | scripts/wheel.js:168 | the colour repeats every twelve slots, and slot `i < 12` takes palette entry `i`: the choice is slot index mod 12 |
| `Wheel.SetNames` | scripts/wheel.js:67-94 | the names are always replaced; the tracker is emptied exactly when the non-empty rigged order is fully on the new wheel or the new wheel has four names including "An" and the old one did not have four, independent of the sort signature; an empty list zeroes the rotation |
| `Wheel.SetRiggedOrder` | scripts/wheel.js:96-98 | the order is replaced and the tracker, names, rotation and flag are untouched |
| `Wheel.Reset` | scripts/wheel.js:176-181 | rotation 0, not spinning, tracker empty; names and rigged order kept |
| `Wheel.Spin` | scripts/wheel.js:100-174 | returns null and changes nothing exactly when the wheel is empty or already spinning; otherwise sets the flag, reports a name on the wheel with a palette colour and duration 5000, either consumes a rigged name that had not won or leaves the tracker alone when none is eligible, and advances the rotation by at least 2160 and, from a valid state, less than 2520 |
| `Wheel.SpinRigged` | scripts/wheel.js:117-133 | when the active order has a first eligible name, that name wins and is added to the tracker, and it had not won before |
| `Wheel.SpinUnrigged` | scripts/wheel.js:135-138 | when no rigged name is eligible, slot `floor(u * n)` wins with its own name and colour, duration 5000, and the tracker is unchanged |
| `Wheel.SpinLandsOnWinner` | scripts/wheel.js:144-172 | after a spin the slot under the pointer is a valid slot, its name is the reported winner, its colour the reported colour, and the rotation mod 360 is that slot's target |
| `Wheel.ApplyValid` | scripts/wheel.js:157-164 | every operation keeps the cumulative rotation non-negative |
| `Wheel.ApplyGrowsTracker` | scripts/wheel.js:80-90 | a step that does not clear the tracker only adds to it, and a rigged winner is a name not yet consumed that is consumed afterwards |
| `Wheel.RiggedWinsAtMostOnce` | scripts/wheel.js:122-134 | in any session without a clearing step the rigged winners are pairwise distinct, none had won before, and all are consumed at the end |
| `Wheel.ResetRestartsOrder` | scripts/wheel.js:176-181 | after `reset`, the first rigged name wins the next spin when it is on a wheel that is not the "An" scenario |
| `Wheel.SentinelOverride` | scripts/wheel.js:117-138 | on any wheel of four names including "An", whatever the stored rigged order: "An" wins and joins the tracker if it has not won yet, and otherwise slot `floor(u * 4)` wins and the tracker is unchanged |
| `Wheel.SentinelScenarioWins` | scripts/wheel.js:78-86 | going from two names to four including "An" empties the tracker, and "An" wins the next spin whatever the rigged order and history |
| `Wheel.RiggedThenChance` | scripts/wheel.js:115-138 | with names A, B, C, D and rigged order ["C"] the first spin gives "C"; the next is left to chance over all four slots and can give "C" again |
| `Wheel.ShuffleColors` | scripts/wheel.js:187-195 | the shuffled palette is a rearrangement of the twelve colours |
| `Seqs.Filter` | scripts/ui.js:101 | `filter` keeps exactly the elements passing the test and grows nothing |
| `Seqs.FilterConcat` | scripts/ui.js:101 | filtering distributes over concatenation, so kept elements keep their order |
| `Seqs.Map` | scripts/ui.js:27 | `map` keeps the length and applies the function at every position |
| `Seqs.RemoveAt` | scripts/ui.js:141 | `splice(i, 1)` drops exactly the element at `i` and shifts the later ones down |
| `Seqs.InsertAt` | scripts/ui.js:142 | `splice(i, 0, x)` puts `x` at `i` and shifts the later ones up |
| `Seqs.RemoveInserted` | scripts/ui.js:141-142 | removing an element just inserted at the same index restores the sequence |
| `Seqs.Swap` | scripts/ui.js:109 | the destructuring swap exchanges two entries and leaves the rest alone, a permutation |
| `Shuffle.FisherYates` | scripts/ui.js:106-110 | the in-place Fisher-Yates pass returns a permutation of its input |
| `Text.Trim` | scripts/ui.js:27 | the result has no whitespace at either end, uses only characters of the input, is empty exactly for an all-whitespace input, and leaves a trimmed string as it is |
| `Text.TrimPadded` | scripts/ui.js:27 | `trim` removes exactly a leading and a trailing whitespace run: a trimmed core between whitespace pads comes back unchanged |
| `Text.TrimIdempotent` | scripts/ui.js:242 | trimming an already trimmed name changes nothing |
| `Text.Split` | scripts/ui.js:26 | splitting yields at least one piece and no piece contains the separator |
| `Text.Join` | scripts/ui.js:222 | the joined text starts with the first piece, followed by the separator when a second piece exists |
| `Text.JoinSplit` | scripts/ui.js:216-222 | joining the pieces of a split with the separator gives back the text |
| `Text.SplitConcat` | scripts/ui.js:26 | a separator splits the text into the pieces before it followed by the pieces after it |
| `Text.SplitJoin` | scripts/ui.js:222 | splitting the join of separator-free pieces gives back the pieces |
| `Text.ParseNames` | scripts/ui.js:25-28 | every parsed name is non-blank, trimmed and holds no line feed |
| `Text.ParseLine` | scripts/ui.js:25-28 | a single line parses to nothing when it is all whitespace and to its trimmed form otherwise; with `Text.ParseNamesConcat` this fixes the parser |
| `Text.ParseNamesConcat` | scripts/ui.js:25-28 | lines are parsed independently and in their original order |
| `Text.ParseJoin` | scripts/ui.js:222-223 | writing clean names one per line and parsing the text gives back the same names |
| `Text.Decimal` | scripts/ui.js:89 | an id renders as a non-empty string of digits without a leading zero |
| `Text.DecimalRoundTrip` | scripts/ui.js:89 | reading the rendered digits gives back the id |
| `Items.LoadFromTextarea` | scripts/ui.js:21-34 | one enabled item per parsed name, with ids 1..n and clean names, so the ids are distinct |
| `Items.ActiveNames` | scripts/ui.js:79-83 | a name goes to the wheel exactly when some enabled item carries it |
| `Items.ActiveNamesConcat` | scripts/ui.js:80-82 | the names handed to the wheel keep the order of the list |
| `Items.LoadedNamesReachWheel` | scripts/ui.js:30-38 | after loading, the wheel receives exactly the parsed names in line order |
| `Items.UpdateWheel` | scripts/ui.js:79-85 | the engine's names become the enabled names, and the tracker follows the reset rule of `setNames` |
| `Items.MaxId` | scripts/ui.js:88 | the maximum of the ids and 0 bounds every id and is 0 or one of them |
| `Items.AddItem` | scripts/ui.js:87-95 | appends one enabled item whose id is one more than the largest id, or 1 when no id is positive, named by the trimmed argument or `Item <id>` when it is missing or blank |
| `Items.AddItemKeepsIdsDistinct` | scripts/ui.js:88-95 | adding an item keeps all ids distinct |
| `Items.DeleteItem` | scripts/ui.js:100-101 | exactly the items with another id remain, each as often as before |
| `Items.DeleteItemKeepsOrder` | scripts/ui.js:101 | deletion keeps the order of the remaining items and is a no-op for an absent id |
| `Items.RenameItem` | scripts/ui.js:62-67 | the first item with the id takes the typed text as its name; ids, flags and every other item are unchanged, and an unknown id changes nothing |
| `Items.RenameItemKeepsIds` | scripts/ui.js:62-67 | renaming keeps the ids distinct, and renaming to the current name is a no-op |
| `Items.ShuffleItems` | scripts/ui.js:106-110 | the shuffled list is a permutation of the items |
| `Items.FindIndexById` | scripts/ui.js:138-139 | the first position with the id, or -1 when no item has it |
| `Items.SpliceStart` | scripts/ui.js:141-142 | an index within the list is used as is, and -1 means the last position |
| `Items.HandleDrop` | scripts/ui.js:132-148 | the drop yields a permutation of the items, and dropping an item on itself changes nothing |
| `Items.HandleDropMoves` | scripts/ui.js:134-142 | with both ids present and different, the dragged item lands at the target's original index and the others keep their order |
| `Items.IndexOf` | scripts/ui.js:219 | the first position of the name, or -1 exactly when it is absent |
| `Items.RemoveFirst` | scripts/ui.js:219-220 | only the first entry equal to the name is removed, and nothing when it is absent |
| `Items.RemoveFirstClean` | scripts/ui.js:216-220 | removing an entry keeps every remaining name clean |
| `Items.RemoveWinner` | scripts/ui.js:209-230 | a blank winner changes nothing; otherwise the rewritten text parses back to the old names minus the first copy of the trimmed winner, and the list is reloaded from it |
| `Items.RemoveAllOfName` | scripts/ui.js:232-252 | a blank winner changes nothing; otherwise the rewritten text parses to the old names, in order, without those whose trimmed form is the trimmed winner; no copy of the trimmed winner remains, every other name keeps its count, and the list is reloaded |
| `Items.RemoveAllCounts` | scripts/ui.js:242 | on trimmed names, comparing trimmed forms removes exactly the winner and keeps every other name's count |
| `Items.RemoveAllKeepsOrder` | scripts/ui.js:239-244 | `removeAllOfName` on two blocks of lines joined by a line feed keeps the names of the first block, then those of the second |

## Left out

- All DOM work is left out: label geometry and font sizing (scripts/wheel.js:27-63), conic-gradient strings, CSS classes, reflow and the `transform` writes. Rendering and event wiring in `renderItemList`, `updateCounter` and `setupEventListeners` are left out too; they only draw the state or dispatch to the modelled operations.
- `Items.RenameItem`: the text-box listener (scripts/ui.js:62-67) stores the typed text verbatim, so after a rename an item name may be untrimmed or blank. `Items.ActiveNames` and `Items.UpdateWheel` accept any names, so such a rename reaches the engine through `setNames` and may clear the tracker. The listener's loose `==` between a numeric id and the element's string id is modelled as equality of ids.
- Strings are sequences of Unicode scalar values, while JavaScript strings are UTF-16 code units. `trim`, `split('\n')`, `join` and equality behave the same on both, but a lone surrogate cannot be represented.
- `Math.random` is left out: every draw is a parameter in [0, 1), and the distribution is not modelled.
- IEEE floating-point rounding is left out: angles are exact reals.
- The sorted, `'|'`-joined signature comparison in `setNames` (scripts/wheel.js:69-70) is an uninterpreted boolean parameter. It only matters when the list grows, and `Wheel.SetNames` shows the outcome does not depend on it.
- These parts are left out because nothing reads them: the `targetName` parameter of `spin`, the `lastNamesSnapshot` field, and `getColors`, which returns the palette constant.
- `isSpinning` is cleared by code outside these two files when the animation ends. Session traces represent this as the step `SpinEndedOp`.
- The results history is left out because it is storage and presentation: `saveResult`, `getResults`, `sortResults`, `clearResults`, `updateResultsTab`, the winner modal and confetti.
- `sortItems` and `sortResults` are left out: they use `localeCompare(..., 'vi')`, whose collation rules are not available.
- The `setTimeout` that resets `isUpdatingProgrammatically` is left out because it is timer plumbing. So is the early return when the textarea element is missing.
- `Items.HandleDrop`: the guard compares DOM elements; the model compares their ids, which are distinct in every list built by `loadFromTextarea` and `addItem`. For an empty list the model returns the list unchanged, where JavaScript would insert `undefined`. A drop cannot happen on an empty list.
- `Rotation.NextRotation`: the upper bound, the target remainder and the landing slot are stated for a non-negative current rotation. Every reachable state has one (`Wheel.ApplyValid`).

=== FILE: angles.dfy ===
/** Exact angle arithmetic in degrees, used by the rotation calculator.
    Angles are mathematical reals; IEEE rounding is not modelled. */
module Angles {

  /** One full turn of the wheel, in degrees. */
  const FullTurn: real := 360.0

  /** Reference remainder modulo a full turn: `x - 360 * floor(x / 360)`.
      It is the unique value in [0, 360) that differs from `x` by whole turns. */
  function Mod360(x: real): (r: real)
    ensures 0.0 <= r < FullTurn
  {
    x - FullTurn * ((x / FullTurn).Floor as real)
  }

  /** Adding whole turns does not change the remainder. */
  lemma ModShift(x: real, k: int)
    ensures Mod360(x + FullTurn * k as real) == Mod360(x)
  {
    var f := (x / FullTurn).Floor;
    assert (x + FullTurn * k as real) / FullTurn == x / FullTurn + k as real;
    assert ((x + FullTurn * k as real) / FullTurn).Floor == f + k;
  }

  /** A value in [0, 360) that differs from `x` by whole turns is `Mod360(x)`. */
  lemma ModUnique(x: real, y: real, k: int)
    requires 0.0 <= y < FullTurn
    requires x == y + FullTurn * k as real
    ensures Mod360(x) == y
  {
    assert x / FullTurn == y / FullTurn + k as real;
    assert (x / FullTurn).Floor == k;
  }

  /** The loop `while (t < 0) t += 360`: lifts a negative angle by whole turns
      until it is non-negative, and leaves a non-negative one alone. */
  function WrapUp(t: real): (r: real)
    ensures 0.0 <= r
    ensures Mod360(r) == Mod360(t)
    ensures t >= 0.0 ==> r == t
    ensures t < 0.0 ==> r < FullTurn
    decreases if t < 0.0 then (-t).Floor + 1 else 0
  {
    if t < 0.0 then
      ModShift(t, 1);
      WrapUp(t + FullTurn)
    else t
  }

  /** The loop `while (t >= 360) t -= 360`: lowers an angle by whole turns
      until it is below a full turn, and leaves a smaller one alone. */
  function WrapDown(t: real): (r: real)
    ensures r < FullTurn
    ensures Mod360(r) == Mod360(t)
    ensures t < FullTurn ==> r == t
    ensures t >= FullTurn ==> 0.0 <= r
    decreases if t >= FullTurn then t.Floor else 0
  {
    if t >= FullTurn then
      ModShift(t - FullTurn, 1);
      WrapDown(t - FullTurn)
    else t
  }

  /** The two normalisation loops of the spin, one after the other.
      The result is the reference remainder of its input. */
  function Normalize(t: real): (r: real)
    ensures 0.0 <= r < FullTurn
    ensures r == Mod360(t)
  {
    var r := WrapDown(WrapUp(t));
    ModUnique(r, r, 0);
    r
  }

  /** For an angle strictly inside (0, 360), normalising its negation takes
      exactly one pass of the first loop and none of the second. */
  lemma NormalizeNegated(x: real)
    requires 0.0 < x < FullTurn
    ensures WrapUp(-x) == FullTurn - x
    ensures WrapDown(FullTurn - x) == FullTurn - x
    ensures Normalize(-x) == FullTurn - x
  {
    assert WrapUp(-x) == WrapUp(-x + FullTurn);
  }

  /** Integer part of a real rounded toward zero, as JavaScript's `%` uses it. */
  function Trunc(x: real): int
  {
    if x >= 0.0 then x.Floor else -((-x).Floor)
  }

  /** JavaScript `x % 360` on numbers: the remainder takes the sign of `x`. */
  function JsRem360(x: real): (r: real)
    ensures -FullTurn < r < FullTurn
    ensures x >= 0.0 ==> r == Mod360(x)
    ensures x < 0.0 ==> r <= 0.0
  {
    x - FullTurn * Trunc(x / FullTurn) as real
  }
}

=== FILE: items.dfy ===
/** The list logic of `UIManager` (scripts/ui.js) with the DOM reads and
    writes stripped away: the entry list is a sequence of items and the
    textarea is a string. */
module Items {
  import opened Wrappers
  import opened Seqs
  import opened Text
  import Wheel
  import Shuffle

  /** One entry of the list. */
  datatype Item = Item(id: int, name: string, enabled: bool)

  /** What `removeWinner` and `removeAllOfName` change: the textarea text and
      the entry list loaded from it. */
  datatype Editor = Editor(text: string, items: seq<Item>)

  /** No two items share an id. */
  predicate DistinctIds(items: seq<Item>)
  {
    forall i, j :: 0 <= i < j < |items| ==> items[i].id != items[j].id
  }

  function IsEnabled(it: Item): bool { it.enabled }

  function NameOf(it: Item): string { it.name }

  /** `loadFromTextarea`: one enabled item per parsed name, in line order,
      numbered from 1; the names are trimmed, non-blank and single-line. */
  function LoadFromTextarea(text: string): (items: seq<Item>)
    ensures |items| == |ParseNames(text)|
    ensures forall i :: 0 <= i < |items| ==>
      && items[i].id == i + 1
      && items[i].enabled
      && IsCleanName(items[i].name)
    ensures DistinctIds(items)
  {
    var names := ParseNames(text);
    seq(|names|, i requires 0 <= i < |names| => Item(i + 1, names[i], true))
  }

  /** The names `updateWheel` hands to the engine: those of the enabled
      items, in list order. A name is passed exactly when some enabled item
      carries it. */
  function ActiveNames(items: seq<Item>): (r: seq<string>)
    ensures |r| <= |items|
    ensures forall n :: n in r <==> exists i :: 0 <= i < |items| && items[i].enabled && items[i].name == n
  {
    ActiveNamesMembers(items);
    Map(Filter(items, IsEnabled), NameOf)
  }

  /** Both directions of the membership promise of `ActiveNames`. */
  lemma ActiveNamesMembers(items: seq<Item>)
    ensures forall n :: n in Map(Filter(items, IsEnabled), NameOf) <==>
      exists i :: 0 <= i < |items| && items[i].enabled && items[i].name == n
  {
    var enabled := Filter(items, IsEnabled);
    var r := Map(enabled, NameOf);
    forall n | n in r
      ensures exists i :: 0 <= i < |items| && items[i].enabled && items[i].name == n
    {
      var k :| 0 <= k < |r| && r[k] == n;
      assert enabled[k] in items;
      var i :| 0 <= i < |items| && items[i] == enabled[k];
    }
    forall n | exists i :: 0 <= i < |items| && items[i].enabled && items[i].name == n
      ensures n in r
    {
      var i :| 0 <= i < |items| && items[i].enabled && items[i].name == n;
      assert items[i] in enabled;
      var k :| 0 <= k < |enabled| && enabled[k] == items[i];
      assert r[k] == n;
    }
  }

  /** The names passed to the engine keep the list order. */
  lemma ActiveNamesConcat(a: seq<Item>, b: seq<Item>)
    ensures ActiveNames(a + b) == ActiveNames(a) + ActiveNames(b)
  {
    FilterConcat(a, b, IsEnabled);
    MapConcat(Filter(a, IsEnabled), Filter(b, IsEnabled), NameOf);
  }

  /** A freshly loaded list puts exactly the parsed names on the wheel. */
  lemma LoadedNamesReachWheel(text: string)
    ensures ActiveNames(LoadFromTextarea(text)) == ParseNames(text)
  {
    var items := LoadFromTextarea(text);
    FilterKeepsAll(items, IsEnabled);
  }

  /** `updateWheel`: the engine receives the enabled names in list order. */
  function UpdateWheel(e: Wheel.Engine, items: seq<Item>, signatureDiffers: bool): (r: Wheel.Engine)
    ensures r.names == ActiveNames(items)
    ensures r.riggedUsed == if Wheel.ClearsTracker(e, ActiveNames(items)) then {} else e.riggedUsed
  {
    Wheel.SetNames(e, ActiveNames(items), signatureDiffers)
  }

  /** `Math.max(...ids, 0)`: the largest id, or 0 for a list without a
      positive id. */
  function MaxId(items: seq<Item>): (m: int)
    ensures m >= 0
    ensures forall i :: 0 <= i < |items| ==> items[i].id <= m
    ensures m == 0 || exists i :: 0 <= i < |items| && items[i].id == m
  {
    if |items| == 0 then 0
    else
      var rest := MaxId(items[1..]);
      if items[0].id > rest then items[0].id else rest
  }

  /** `addItem`: appends an enabled item whose id is one more than the
      largest existing id, or 1 when no id is positive. It is named after the trimmed argument, or
      `Item <id>` when there is no argument or it is blank. */
  function AddItem(items: seq<Item>, name: Option<string>): (r: seq<Item>)
    ensures |r| == |items| + 1 && r[..|items|] == items
    ensures r[|items|].enabled
    ensures r[|items|].id >= 1
    ensures forall i :: 0 <= i < |items| ==> items[i].id < r[|items|].id
    ensures r[|items|].id == 1 || exists i :: 0 <= i < |items| && items[i].id == r[|items|].id - 1
    ensures name.Some? && !AllWhitespace(name.value) ==> r[|items|].name == Trim(name.value)
    ensures name.None? || AllWhitespace(name.value) ==> r[|items|].name == "Item " + Decimal(r[|items|].id)
  {
    var newId := MaxId(items) + 1;
    var itemName := if name.Some? && name.value != "" && Trim(name.value) != "" then Trim(name.value) else "Item " + Decimal(newId);
    items + [Item(newId, itemName, true)]
  }

  /** Adding an item keeps the ids distinct. */
  lemma AddItemKeepsIdsDistinct(items: seq<Item>, name: Option<string>)
    requires DistinctIds(items)
    ensures DistinctIds(AddItem(items, name))
  {
  }

  /** The `item.id !== id` test of `deleteItem`. */
  function LacksId(id: int): Item -> bool
  {
    (it: Item) => it.id != id
  }

  /** `deleteItem`: drops every item with the given id and keeps the others,
      each as often as before and in their order. */
  function DeleteItem(items: seq<Item>, id: int): (r: seq<Item>)
    ensures forall it :: it in r <==> it in items && it.id != id
    ensures forall it: Item :: it.id != id ==> multiset(r)[it] == multiset(items)[it]
  {
    var r := Filter(items, LacksId(id));
    forall it: Item | it.id != id
      ensures multiset(r)[it] == multiset(items)[it]
    {
      FilterCounts(items, LacksId(id), it);
    }
    r
  }

  /** Deleting distributes over concatenation, so the kept items stay in
      order; deleting an absent id changes nothing. */
  lemma DeleteItemKeepsOrder(a: seq<Item>, b: seq<Item>, id: int)
    ensures DeleteItem(a + b, id) == DeleteItem(a, id) + DeleteItem(b, id)
    ensures (forall i :: 0 <= i < |a| ==> a[i].id != id) ==> DeleteItem(a, id) == a
  {
    FilterConcat(a, b, LacksId(id));
    if forall i :: 0 <= i < |a| ==> a[i].id != id {
      FilterKeepsAll(a, LacksId(id));
    }
  }

  /** The input listener of an item's text box: the first item with that id
      takes the typed text as its name, verbatim. Nothing else changes, and
      an unknown id changes nothing. */
  function RenameItem(items: seq<Item>, id: int, text: string): (r: seq<Item>)
    ensures |r| == |items|
    ensures forall i :: 0 <= i < |items| ==> r[i].id == items[i].id && r[i].enabled == items[i].enabled
    ensures forall i :: 0 <= i < |items| && i != FindIndexById(items, id) ==> r[i] == items[i]
    ensures FindIndexById(items, id) >= 0 ==> r[FindIndexById(items, id)].name == text
  {
    var k := FindIndexById(items, id);
    if k == -1 then items else items[k := items[k].(name := text)]
  }

  /** Renaming keeps the ids distinct, and renaming to the current name
      changes nothing. */
  lemma RenameItemKeepsIds(items: seq<Item>, id: int, text: string)
    ensures DistinctIds(items) ==> DistinctIds(RenameItem(items, id, text))
    ensures (forall i :: 0 <= i < |items| && items[i].id == id ==> items[i].name == text) ==> RenameItem(items, id, text) == items
  {
    var r := RenameItem(items, id, text);
    var k := FindIndexById(items, id);
    if forall i :: 0 <= i < |items| && items[i].id == id ==> items[i].name == text {
      if k >= 0 {
        assert r[k] == items[k];
      }
      assert forall i :: 0 <= i < |items| ==> r[i] == items[i];
    }
  }

  /** `shuffleItems`: a rearrangement of the list, with `|items| - 1` draws. */
  method ShuffleItems(items: seq<Item>, draws: seq<real>) returns (r: seq<Item>)
    requires |items| <= |draws| + 1
    requires forall k :: 0 <= k < |draws| ==> 0.0 <= draws[k] < 1.0
    ensures |r| == |items|
    ensures multiset(r) == multiset(items)
  {
    r := Shuffle.FisherYates(items, draws);
  }

  /** `findIndex(i => i.id === id)`: the first position with that id, or -1. */
  function FindIndexById(items: seq<Item>, id: int): (r: int)
    ensures -1 <= r < |items|
    ensures r >= 0 ==> items[r].id == id && forall k :: 0 <= k < r ==> items[k].id != id
    ensures r == -1 ==> forall k :: 0 <= k < |items| ==> items[k].id != id
  {
    if |items| == 0 then -1
    else if items[0].id == id then 0
    else
      var rest := FindIndexById(items[1..], id);
      if rest == -1 then -1 else rest + 1
  }

  /** The start position `splice` uses for a relative index: negative
      indices count from the end, and both ends are clamped. */
  function SpliceStart(len: nat, start: int): (r: nat)
    ensures r <= len
    ensures 0 <= start <= len ==> r == start
    ensures start == -1 && len > 0 ==> r == len - 1
  {
    if start < 0 then (if len + start < 0 then 0 else len + start)
    else if start > len then len
    else start
  }

  /** `handleDrop`: takes the dragged item out and reinserts it at the
      target's original index. Dropping an item on itself does nothing. An
      id that is not on the list reads as index -1, which `splice` treats as
      the last position. */
  function HandleDrop(items: seq<Item>, draggedId: int, targetId: int): (r: seq<Item>)
    ensures |r| == |items|
    ensures multiset(r) == multiset(items)
    ensures draggedId == targetId ==> r == items
  {
    if draggedId == targetId || |items| == 0 then items
    else
      var d := SpliceStart(|items|, FindIndexById(items, draggedId));
      var t := FindIndexById(items, targetId);
      var rest := RemoveAt(items, d);
      InsertAt(rest, SpliceStart(|rest|, t), items[d])
  }

  /** When both ids are on the list and differ, the dragged item ends at the
      target's original index and the other items keep their order. */
  lemma HandleDropMoves(items: seq<Item>, draggedId: int, targetId: int)
    requires draggedId != targetId
    requires FindIndexById(items, draggedId) >= 0 && FindIndexById(items, targetId) >= 0
    ensures var d := FindIndexById(items, draggedId);
            var t := FindIndexById(items, targetId);
            var r := HandleDrop(items, draggedId, targetId);
            && r[t] == items[d]
            && RemoveAt(r, t) == RemoveAt(items, d)
  {
    var d := FindIndexById(items, draggedId);
    var t := FindIndexById(items, targetId);
    assert SpliceStart(|items|, d) == d;
    var rest := RemoveAt(items, d);
    assert SpliceStart(|rest|, t) == t;
    RemoveInserted(rest, t, items[d]);
  }

  /** `indexOf`: the first position holding `x`, or -1. */
  function IndexOf(s: seq<string>, x: string): (r: int)
    ensures -1 <= r < |s|
    ensures r >= 0 ==> s[r] == x && x !in s[..r]
    ensures r == -1 <==> x !in s
  {
    if |s| == 0 then -1
    else if s[0] == x then 0
    else
      var rest := IndexOf(s[1..], x);
      assert s == [s[0]] + s[1..];
      if rest == -1 then -1
      else
        assert s[..rest + 1] == [s[0]] + s[1..][..rest];
        rest + 1
  }

  /** Removes the first occurrence of `x`, if any: exactly one copy of `x`
      goes, the entries before it and after it stay in place. */
  function RemoveFirst(s: seq<string>, x: string): (r: seq<string>)
    ensures x !in s ==> r == s
    ensures x in s ==> multiset(r) == multiset(s) - multiset{x}
    ensures x in s ==> exists i :: 0 <= i < |s| && s[i] == x && x !in s[..i] && r == s[..i] + s[i + 1..]
  {
    var i := IndexOf(s, x);
    if i == -1 then s
    else
      assert s[..i] + s[i + 1..] == RemoveAt(s, i);
      RemoveAt(s, i)
  }

  /** Removing an entry keeps every entry clean. */
  lemma RemoveFirstClean(s: seq<string>, x: string)
    requires forall k :: 0 <= k < |s| ==> IsCleanName(s[k])
    ensures forall k :: 0 <= k < |RemoveFirst(s, x)| ==> IsCleanName(RemoveFirst(s, x)[k])
  {
    var r := RemoveFirst(s, x);
    forall k | 0 <= k < |r|
      ensures IsCleanName(r[k])
    {
      assert multiset(r)[r[k]] > 0;
      assert r[k] in s;
    }
  }

  /** `removeWinner`: a blank winner changes nothing; otherwise the first
      entry equal to the trimmed winner is removed from the text, the text
      is rewritten one name per line, and the list is reloaded from it. The
      rewritten text parses back to exactly the remaining names. */
  function RemoveWinner(ed: Editor, winner: string): (r: Editor)
    ensures winner == "" ==> r == ed
    ensures winner != "" ==> ParseNames(r.text) == RemoveFirst(ParseNames(ed.text), Trim(winner))
    ensures winner != "" ==> r.items == LoadFromTextarea(r.text)
  {
    if winner == "" then ed
    else
      var names := RemoveFirst(ParseNames(ed.text), Trim(winner));
      RemoveFirstClean(ParseNames(ed.text), Trim(winner));
      ParseJoin(names);
      var text := Join(names, '\n');
      Editor(text, LoadFromTextarea(text))
  }

  /** The `name.trim() !== winnerName.trim()` test of `removeAllOfName`. */
  function DiffersFrom(winner: string): string -> bool
  {
    (n: string) => Trim(n) != Trim(winner)
  }

  /** `removeAllOfName`: a blank winner changes nothing; otherwise every
      entry whose trimmed form equals the trimmed winner is removed, the
      others keep their order and multiplicity, and the list is reloaded
      from the rewritten text. */
  function RemoveAllOfName(ed: Editor, winner: string): (r: Editor)
    ensures winner == "" ==> r == ed
    ensures winner != "" ==> ParseNames(r.text) == Filter(ParseNames(ed.text), DiffersFrom(winner))
    ensures winner != "" ==> Trim(winner) !in ParseNames(r.text)
    ensures winner != "" ==> forall n :: n != Trim(winner) ==> multiset(ParseNames(r.text))[n] == multiset(ParseNames(ed.text))[n]
    ensures winner != "" ==> r.items == LoadFromTextarea(r.text)
  {
    if winner == "" then ed
    else
      var before := ParseNames(ed.text);
      var names := Filter(before, DiffersFrom(winner));
      assert forall k :: 0 <= k < |names| ==> names[k] in before;
      ParseJoin(names);
      RemoveAllCounts(before, winner);
      var text := Join(names, '\n');
      Editor(text, LoadFromTextarea(text))
  }

  /** On clean names, comparing trimmed forms is comparing the names. */
  lemma RemoveAllCounts(s: seq<string>, winner: string)
    requires forall k :: 0 <= k < |s| ==> IsCleanName(s[k])
    ensures Trim(winner) !in Filter(s, DiffersFrom(winner))
    ensures forall n :: n != Trim(winner) ==> multiset(Filter(s, DiffersFrom(winner)))[n] == multiset(s)[n]
  {
    forall n | n != Trim(winner)
      ensures multiset(Filter(s, DiffersFrom(winner)))[n] == multiset(s)[n]
    {
      FilterCounts(s, DiffersFrom(winner), n);
      if n in s {
        assert IsTrimmed(n);
      }
    }
  }

  /** The names kept by `removeAllOfName` keep their order: the lines of a
      text are processed independently and in sequence. */
  lemma RemoveAllKeepsOrder(a: string, b: string, items: seq<Item>, winner: string)
    requires winner != ""
    ensures ParseNames(RemoveAllOfName(Editor(a + "\n" + b, items), winner).text)
         == ParseNames(RemoveAllOfName(Editor(a, items), winner).text)
          + ParseNames(RemoveAllOfName(Editor(b, items), winner).text)
  {
    ParseNamesConcat(a, b);
    FilterConcat(ParseNames(a), ParseNames(b), DiffersFrom(winner));
  }
}

=== FILE: rotation.dfy ===
/** The rotation calculator of `WheelManager.spin` (scripts/wheel.js:144-164):
    from the current cumulative rotation, the winning slot and one random draw,
    the new cumulative rotation of the wheel.

    The wheel is drawn clockwise from the pointer, slot `i` covering the angles
    [i * seg, (i + 1) * seg) where `seg = 360 / n`. Rotating the wheel by `R`
    degrees puts the wheel angle `Mod360(-R)` under the fixed pointer. */
module Rotation {
  import opened Angles

  /** Six full turns: the least distance any spin travels. */
  const MinimumSpin: real := 2160.0

  /** Angle covered by one slot when the wheel has `count` slots. */
  function SegmentAngle(count: nat): (seg: real)
    requires count > 0
    ensures 0.0 < seg <= FullTurn
    ensures seg * count as real == FullTurn
  {
    FullTurn / count as real
  }

  /** Centre of slot `index`: strictly between the slot's two edges. */
  function SegmentCenter(index: nat, count: nat): (c: real)
    requires count > 0
    ensures index as real * SegmentAngle(count) < c < index as real * SegmentAngle(count) + SegmentAngle(count)
  {
    var seg := SegmentAngle(count);
    index as real * seg + seg / 2.0
  }

  /** Jitter `(u * 0.6 - 0.3) * seg` for a draw `u` of `Math.random()`: for
      a draw in [0, 1), at most 0.3 of a slot width either way. */
  function RandomOffset(u: real, count: nat): (off: real)
    requires count > 0
    ensures 0.0 <= u < 1.0 ==> -0.3 * SegmentAngle(count) <= off < 0.3 * SegmentAngle(count)
  {
    var seg := SegmentAngle(count);
    JitterLinear(u, seg);
    ScaleBelow(u, seg);
    (u * 0.6 - 0.3) * seg
  }

  /** Wheel angle the spin aims at: slot centre plus jitter, so within 0.3
      of a slot width of the centre. */
  function LandingPoint(index: nat, count: nat, u: real): (p: real)
    requires count > 0
    ensures 0.0 <= u < 1.0 ==> -0.3 * SegmentAngle(count) <= p - SegmentCenter(index, count) < 0.3 * SegmentAngle(count)
  {
    SegmentCenter(index, count) + RandomOffset(u, count)
  }

  /** The landing point lies within 0.3 of a slot width of the slot centre,
      hence strictly inside the slot and strictly inside (0, 360). */
  lemma LandingInsideSlot(index: nat, count: nat, u: real)
    requires index < count
    requires 0.0 <= u < 1.0
    ensures var seg := SegmentAngle(count);
            var p := LandingPoint(index, count, u);
            && -0.3 * seg <= p - SegmentCenter(index, count)
            && p - SegmentCenter(index, count) < 0.3 * seg
            && index as real * seg < p
            && p < (index + 1) as real * seg
            && 0.0 < p < FullTurn
  {
    var seg := SegmentAngle(count);
    var w := u * seg;
    ScaleBelow(u, seg);
    JitterLinear(u, seg);
    var off := RandomOffset(u, count);
    assert off == 0.6 * w - 0.3 * seg;
    var c := SegmentCenter(index, count);
    var lo := index as real * seg;
    assert c == lo + seg / 2.0;
    NextSlotStart(index, count, seg);
    assert LandingPoint(index, count, u) == c + off;
  }

  /** `(u * 0.6 - 0.3) * seg` is linear in `u * seg`. */
  lemma JitterLinear(u: real, seg: real)
    ensures (u * 0.6 - 0.3) * seg == 0.6 * (u * seg) - 0.3 * seg
  {
  }

  /** The slot after `index` starts one slot width later, at most at 360. */
  lemma NextSlotStart(index: nat, count: nat, seg: real)
    requires index < count
    requires seg > 0.0 && seg * count as real == FullTurn
    ensures (index + 1) as real * seg == index as real * seg + seg
    ensures (index + 1) as real * seg <= FullTurn
    ensures index as real * seg >= 0.0
  {
    ScaleBelow((count - index - 1) as real, seg);
    ScaleBelow(index as real, seg);
  }

  /** Multiplying by a positive factor keeps a value in [0, 1) scaled into
      [0, factor), and a non-negative one non-negative. */
  lemma ScaleBelow(x: real, factor: real)
    requires factor > 0.0
    ensures x >= 0.0 ==> x * factor >= 0.0
    ensures 0.0 <= x < 1.0 ==> x * factor < factor
  {
  }

  /** Slot under the pointer once the wheel has rotated by `rotation`. */
  function SlotUnderPointer(rotation: real, count: nat): int
    requires count > 0
  {
    (Mod360(-rotation) / SegmentAngle(count)).Floor
  }

  /** `targetRotation`: the negated landing point, normalised into [0, 360)
      by the two `while` loops. */
  function TargetRotation(index: nat, count: nat, u: real): (r: real)
    requires index < count
    requires 0.0 <= u < 1.0
    ensures 0.0 <= r < FullTurn
    ensures r == FullTurn - LandingPoint(index, count, u)
  {
    LandingInsideSlot(index, count, u);
    NormalizeNegated(LandingPoint(index, count, u));
    Normalize(-LandingPoint(index, count, u))
  }

  /** Forward distance from the current position to the target: the
      difference of the two, plus a full turn when it is negative. It is
      never negative, and below a full turn from a non-negative rotation. */
  function ForwardDelta(current: real, target: real): (d: real)
    ensures 0.0 <= target < FullTurn ==> 0.0 <= d < 2.0 * FullTurn
    ensures 0.0 <= target < FullTurn && current >= 0.0 ==> d < FullTurn
  {
    var additional := target - JsRem360(current);
    if additional < 0.0 then additional + FullTurn else additional
  }

  /** New cumulative rotation: six full turns plus the forward distance.
      It always moves forward by at least six turns; from a non-negative
      rotation it moves by less than seven, ends on the target angle, and
      leaves slot `index` under the pointer. */
  function NextRotation(current: real, index: nat, count: nat, u: real): (r: real)
    requires index < count
    requires 0.0 <= u < 1.0
    ensures r >= current + MinimumSpin
    ensures current >= 0.0 ==> r < current + MinimumSpin + FullTurn
    ensures current >= 0.0 ==> Mod360(r) == TargetRotation(index, count, u)
    ensures current >= 0.0 ==> Mod360(-r) == LandingPoint(index, count, u)
    ensures current >= 0.0 ==> SlotUnderPointer(r, count) == index
  {
    var target := TargetRotation(index, count, u);
    var r := current + MinimumSpin + ForwardDelta(current, target);
    if current >= 0.0 then
      LandsOnTarget(current, index, count, u);
      r
    else r
  }

  /** The arithmetic behind the last three promises of `NextRotation`. */
  lemma LandsOnTarget(current: real, index: nat, count: nat, u: real)
    requires current >= 0.0
    requires index < count
    requires 0.0 <= u < 1.0
    ensures var target := TargetRotation(index, count, u);
            var r := current + MinimumSpin + ForwardDelta(current, target);
            && Mod360(r) == target
            && Mod360(-r) == LandingPoint(index, count, u)
            && SlotUnderPointer(r, count) == index
  {
    var target := TargetRotation(index, count, u);
    var p := LandingPoint(index, count, u);
    var r := current + MinimumSpin + ForwardDelta(current, target);
    var turns := ForwardTurns(current, target);
    ModUnique(r, target, turns);
    LandingInsideSlot(index, count, u);
    assert -r == p + FullTurn * (-turns - 1) as real;
    ModUnique(-r, p, -turns - 1);
    SlotOfLandingPoint(index, count, u);
  }

  /** From a non-negative rotation, six turns plus the forward delta end a
      whole number of turns past the target. */
  lemma ForwardTurns(current: real, target: real) returns (turns: int)
    requires current >= 0.0
    requires 0.0 <= target < FullTurn
    ensures current + MinimumSpin + ForwardDelta(current, target) == target + FullTurn * turns as real
  {
    var k := (current / FullTurn).Floor;
    assert current == JsRem360(current) + FullTurn * k as real;
    turns := if target - JsRem360(current) < 0.0 then k + 7 else k + 6;
  }

  /** The landing point lies in slot `index`. */
  lemma SlotOfLandingPoint(index: nat, count: nat, u: real)
    requires index < count
    requires 0.0 <= u < 1.0
    ensures (LandingPoint(index, count, u) / SegmentAngle(count)).Floor == index
  {
    var seg := SegmentAngle(count);
    var p := LandingPoint(index, count, u);
    assert p == (index as real + 0.2 + 0.6 * u) * seg;
    assert p / seg == index as real + 0.2 + 0.6 * u;
  }
}

=== FILE: selection.dfy ===
/** Winner selection of `WheelManager.spin` (scripts/wheel.js:111-138): the
    hidden rigged pass over the active order, then the uniform fallback. */
module Selection {
  import opened Wrappers

  /** The special name whose presence among exactly four names overrides
      the rigged order. */
  const Sentinel: string := "An"

  /** The four-names-including-"An" scenario. */
  predicate IsSentinelScenario(names: seq<string>)
  {
    |names| == 4 && Sentinel in names
  }

  /** The order the rigged pass scans: `["An"]` in the sentinel scenario,
      the stored rigged order otherwise. */
  function ActiveOrder(names: seq<string>, riggedOrder: seq<string>): (r: seq<string>)
    ensures IsSentinelScenario(names) ==> r == [Sentinel] && Sentinel in names
    ensures !IsSentinelScenario(names) ==> r == riggedOrder
  {
    if IsSentinelScenario(names) then [Sentinel] else riggedOrder
  }

  /** A rigged name may win when it has not won yet and is on the wheel. */
  predicate Eligible(name: string, used: set<string>, names: seq<string>)
  {
    name !in used && name in names
  }

  /** `order[k]` is eligible and no earlier entry is. */
  predicate IsFirstEligible(order: seq<string>, used: set<string>, names: seq<string>, k: nat)
  {
    && k < |order|
    && Eligible(order[k], used, names)
    && forall j :: 0 <= j < k ==> !Eligible(order[j], used, names)
  }

  /** No entry of `order` is eligible. */
  predicate NoneEligible(order: seq<string>, used: set<string>, names: seq<string>)
  {
    forall j :: 0 <= j < |order| ==> !Eligible(order[j], used, names)
  }

  /** Index of the first eligible name of `order` at or after `from`. */
  function FirstEligible(order: seq<string>, used: set<string>, names: seq<string>, from: nat): (r: Option<nat>)
    requires from <= |order|
    ensures r.Some? ==> from <= r.value < |order| && Eligible(order[r.value], used, names)
    ensures forall j :: from <= j < |order| && (r.None? || j < r.value) ==> !Eligible(order[j], used, names)
    decreases |order| - from
  {
    if from == |order| then None
    else if Eligible(order[from], used, names) then Some(from)
    else FirstEligible(order, used, names, from + 1)
  }

  /** Slots holding `x` at or after `from`, in increasing order
      (the `map`/`filter` at scripts/wheel.js:128-129). */
  function Positions(names: seq<string>, x: string, from: nat): (r: seq<nat>)
    requires from <= |names|
    ensures forall k :: 0 <= k < |r| ==> from <= r[k] < |names| && names[r[k]] == x
    ensures forall i :: from <= i < |names| && names[i] == x ==> i in r
    ensures forall k, l :: 0 <= k < l < |r| ==> r[k] < r[l]
    decreases |names| - from
  {
    if from == |names| then []
    else if names[from] == x then [from] + Positions(names, x, from + 1)
    else Positions(names, x, from + 1)
  }

  /** `Math.floor(u * n)` for a draw `u` of `Math.random()`: slot `i` is
      drawn exactly for `u` in [i/n, (i+1)/n), a uniform index below `n`. */
  function PickIndex(u: real, n: nat): (i: nat)
    requires 0.0 <= u < 1.0
    requires n > 0
    ensures i < n
    ensures i as real <= u * n as real < (i + 1) as real
  {
    DrawBelow(u, n as real);
    FloorBelow(u * n as real, n);
    (u * n as real).Floor
  }

  /** The floor of a value in [0, n) is an index below `n`. */
  lemma FloorBelow(x: real, n: nat)
    requires 0.0 <= x < n as real
    ensures 0 <= x.Floor < n
    ensures x.Floor as real <= x < (x.Floor + 1) as real
  {
  }

  /** A draw in [0, 1) scales a positive count into [0, count). */
  lemma DrawBelow(u: real, m: real)
    requires 0.0 <= u < 1.0
    requires m > 0.0
    ensures 0.0 <= u * m < m
  {
    assert m - u * m == (1.0 - u) * m;
    assert (1.0 - u) * m > 0.0;
  }

  /** The outcome of the selection: the slot, its name, and whether the
      rigged pass decided it. */
  datatype Choice = Choice(index: nat, name: string, rigged: bool)

  /** Picks the winning slot from the first random draw `u`. The rigged pass
      wins with the first eligible name of the active order, at the slot
      among that name's slots that the draw picks; when no name is eligible
      the slot is `floor(u * n)`. */
  function Choose(names: seq<string>, riggedOrder: seq<string>, used: set<string>, u: real): (c: Choice)
    requires |names| > 0
    requires 0.0 <= u < 1.0
    ensures c.index < |names| && names[c.index] == c.name
    ensures c.rigged ==> exists k: nat :: IsFirstEligible(ActiveOrder(names, riggedOrder), used, names, k)
                                   && ActiveOrder(names, riggedOrder)[k] == c.name
    ensures c.rigged ==> && |Positions(names, c.name, 0)| > 0
                         && c.index == Positions(names, c.name, 0)[PickIndex(u, |Positions(names, c.name, 0)|)]
    ensures !c.rigged ==> NoneEligible(ActiveOrder(names, riggedOrder), used, names)
    ensures !c.rigged ==> c.index == PickIndex(u, |names|)
  {
    var order := ActiveOrder(names, riggedOrder);
    match FirstEligible(order, used, names, 0)
    case Some(k) =>
      var name := order[k];
      var slots := Positions(names, name, 0);
      assert |slots| > 0 by {
        var i :| 0 <= i < |names| && names[i] == name;
        assert i in slots;
      }
      assert IsFirstEligible(order, used, names, k);
      Choice(slots[PickIndex(u, |slots|)], name, true)
    case None =>
      var i := PickIndex(u, |names|);
      Choice(i, names[i], false)
  }
}

=== FILE: seqs.dfy ===
/** Order-preserving list operations shared by the wheel and its editor. */
module Seqs {

  /** `Array.prototype.filter`: keep the elements satisfying `p`, in order. */
  function Filter<T(!new)>(s: seq<T>, p: T -> bool): (r: seq<T>)
    ensures |r| <= |s|
    ensures forall x :: x in r <==> x in s && p(x)
  {
    if |s| == 0 then []
    else
      assert s == [s[0]] + s[1..];
      var rest := Filter(s[1..], p);
      if p(s[0]) then [s[0]] + rest else rest
  }

  /** Filtering keeps every copy of an accepted value and no copy of a
      rejected one. */
  lemma {:induction false} FilterCounts<T(!new)>(s: seq<T>, p: T -> bool, x: T)
    ensures multiset(Filter(s, p))[x] == if p(x) then multiset(s)[x] else 0
  {
    if |s| > 0 {
      assert s == [s[0]] + s[1..];
      FilterCounts(s[1..], p, x);
    }
  }

  /** `Array.prototype.map`. */
  function Map<T, U>(s: seq<T>, f: T -> U): (r: seq<U>)
    ensures |r| == |s|
    ensures forall i :: 0 <= i < |s| ==> r[i] == f(s[i])
  {
    seq(|s|, i requires 0 <= i < |s| => f(s[i]))
  }

  /** Filtering distributes over concatenation, so it keeps the relative
      order of the elements it keeps. */
  lemma {:induction false} FilterConcat<T(!new)>(a: seq<T>, b: seq<T>, p: T -> bool)
    ensures Filter(a + b, p) == Filter(a, p) + Filter(b, p)
  {
    if |a| == 0 {
      assert a + b == b;
    } else {
      assert (a + b)[0] == a[0];
      assert (a + b)[1..] == a[1..] + b;
      FilterConcat(a[1..], b, p);
      var rest := Filter(a[1..], p);
      if p(a[0]) {
        assert Filter(a + b, p) == [a[0]] + (rest + Filter(b, p));
        assert Filter(a, p) == [a[0]] + rest;
      } else {
        assert Filter(a + b, p) == rest + Filter(b, p);
        assert Filter(a, p) == rest;
      }
    }
  }

  /** A filter that rejects nothing is the identity. */
  lemma {:induction false} FilterKeepsAll<T(!new)>(s: seq<T>, p: T -> bool)
    requires forall i :: 0 <= i < |s| ==> p(s[i])
    ensures Filter(s, p) == s
  {
    if |s| > 0 {
      FilterKeepsAll(s[1..], p);
    }
  }

  /** Mapping distributes over concatenation. */
  lemma MapConcat<T, U>(a: seq<T>, b: seq<T>, f: T -> U)
    ensures Map(a + b, f) == Map(a, f) + Map(b, f)
  {
  }

  /** `s` with the element at `i` taken out (`splice(i, 1)`). */
  function RemoveAt<T>(s: seq<T>, i: nat): (r: seq<T>)
    requires i < |s|
    ensures |r| == |s| - 1
    ensures forall k :: 0 <= k < i ==> r[k] == s[k]
    ensures forall k :: i <= k < |r| ==> r[k] == s[k + 1]
    ensures multiset(r) == multiset(s) - multiset{s[i]}
  {
    assert s == s[..i] + [s[i]] + s[i + 1..];
    s[..i] + s[i + 1..]
  }

  /** `s` with `x` inserted before position `i` (`splice(i, 0, x)`). */
  function InsertAt<T>(s: seq<T>, i: nat, x: T): (r: seq<T>)
    requires i <= |s|
    ensures |r| == |s| + 1
    ensures r[i] == x
    ensures forall k :: 0 <= k < i ==> r[k] == s[k]
    ensures forall k :: i < k < |r| ==> r[k] == s[k - 1]
    ensures multiset(r) == multiset(s) + multiset{x}
  {
    assert s == s[..i] + s[i..];
    s[..i] + [x] + s[i..]
  }

  /** Taking out an entry just inserted gives back the sequence. */
  lemma RemoveInserted<T>(s: seq<T>, i: nat, x: T)
    requires i <= |s|
    ensures RemoveAt(InsertAt(s, i, x), i) == s
  {
    var r := InsertAt(s, i, x);
    assert r == s[..i] + [x] + s[i..];
    assert r[..i] == s[..i];
    assert r[i + 1..] == s[i..];
    assert s[..i] + s[i..] == s;
  }

  /** Exchanging two entries (`[s[i], s[j]] = [s[j], s[i]]`) permutes `s`. */
  function Swap<T>(s: seq<T>, i: nat, j: nat): (r: seq<T>)
    requires i < |s| && j < |s|
    ensures |r| == |s|
    ensures r[i] == s[j] && r[j] == s[i]
    ensures forall k :: 0 <= k < |s| && k != i && k != j ==> r[k] == s[k]
    ensures multiset(r) == multiset(s)
  {
    s[i := s[j]][j := s[i]]
  }
}

=== FILE: shuffle.dfy ===
/** The Fisher-Yates shuffle used for both the wheel palette
    (scripts/wheel.js:187-195) and the entry list (scripts/ui.js:106-110). */
module Shuffle {
  import opened Seqs
  import Selection

  /** Walks `i` from the last index down to 1, swapping entry `i` with the
      entry at `floor(u * (i + 1))`. Draw `draws[|s| - 1 - i]` is the
      `Math.random()` value of the step at `i`, so a list of `n > 0` entries
      uses `n - 1` draws. The result is a rearrangement of `s`. */
  method FisherYates<T>(s: seq<T>, draws: seq<real>) returns (r: seq<T>)
    requires |s| <= |draws| + 1
    requires forall k :: 0 <= k < |draws| ==> 0.0 <= draws[k] < 1.0
    ensures |r| == |s|
    ensures multiset(r) == multiset(s)
  {
    r := s;
    var i := |r| - 1;
    while i > 0
      invariant |r| == |s|
      invariant i < |r|
      invariant multiset(r) == multiset(s)
    {
      var j := Selection.PickIndex(draws[|s| - 1 - i], i + 1);
      r := Swap(r, i, j);
      i := i - 1;
    }
  }
}

=== FILE: text.dfy ===
/** String operations the editor relies on: JavaScript's `trim`, `split` and
    `join` with a one-character separator, the textarea parsing pipeline, and
    decimal rendering of an id. */
module Text {
  import opened Seqs

  /** The characters `String.prototype.trim` removes: the ECMAScript
      WhiteSpace and LineTerminator code points. */
  predicate IsJsWhitespace(c: char)
  {
    || c == '\t' || c == '\n' || c == '\r' || c == ' '
    || c == '\U{000B}' || c == '\U{000C}' || c == '\U{00A0}' || c == '\U{1680}'
    || ('\U{2000}' <= c <= '\U{200A}')
    || c == '\U{2028}' || c == '\U{2029}' || c == '\U{202F}' || c == '\U{205F}'
    || c == '\U{3000}' || c == '\U{FEFF}'
  }

  /** Neither end of `s` is whitespace. */
  predicate IsTrimmed(s: string)
  {
    |s| == 0 || (!IsJsWhitespace(s[0]) && !IsJsWhitespace(s[|s| - 1]))
  }

  /** Every character of `s` is whitespace. */
  predicate AllWhitespace(s: string)
  {
    forall i :: 0 <= i < |s| ==> IsJsWhitespace(s[i])
  }

  /** Every character of `r` occurs in `s`. */
  predicate CharsFrom(r: string, s: string)
  {
    forall i :: 0 <= i < |r| ==> r[i] in s
  }

  /** The first index at or after `from` that is not whitespace, or `|s|`. */
  function LeadingSpaceEnd(s: string, from: nat): (k: nat)
    requires from <= |s|
    ensures from <= k <= |s|
    ensures forall i :: from <= i < k ==> IsJsWhitespace(s[i])
    ensures k < |s| ==> !IsJsWhitespace(s[k])
    decreases |s| - from
  {
    if from == |s| || !IsJsWhitespace(s[from]) then from else LeadingSpaceEnd(s, from + 1)
  }

  /** The largest index up to `end` that follows a non-whitespace character,
      or 0. */
  function ContentEnd(s: string, end: nat): (k: nat)
    requires end <= |s|
    ensures k <= end
    ensures forall i :: k <= i < end ==> IsJsWhitespace(s[i])
    ensures k > 0 ==> !IsJsWhitespace(s[k - 1])
    decreases end
  {
    if end == 0 || !IsJsWhitespace(s[end - 1]) then end else ContentEnd(s, end - 1)
  }

  /** `s` without its leading whitespace. */
  function TrimStart(s: string): string
  {
    s[LeadingSpaceEnd(s, 0)..]
  }

  /** `s` without its trailing whitespace. */
  function TrimEnd(s: string): string
  {
    s[..ContentEnd(s, |s|)]
  }

  /** `String.prototype.trim`: the result is trimmed, made of characters of
      `s`, empty exactly when `s` is all whitespace, and equal to `s` when
      `s` is already trimmed. */
  function Trim(s: string): (r: string)
    ensures IsTrimmed(r)
    ensures |r| <= |s|
    ensures CharsFrom(r, s)
    ensures |r| == 0 <==> AllWhitespace(s)
    ensures IsTrimmed(s) ==> r == s
  {
    TrimBothEnds(s);
    TrimEnd(TrimStart(s))
  }

  /** The facts behind the contract of `Trim`. */
  lemma TrimBothEnds(s: string)
    ensures var r := TrimEnd(TrimStart(s));
            && IsTrimmed(r)
            && |r| <= |s|
            && CharsFrom(r, s)
            && (|r| == 0 <==> AllWhitespace(s))
            && (IsTrimmed(s) ==> r == s)
  {
    var a := LeadingSpaceEnd(s, 0);
    var t := s[a..];
    var b := ContentEnd(t, |t|);
    var r := t[..b];
    assert forall i :: 0 <= i < |r| ==> r[i] == s[a + i];
    if b > 0 {
      assert r[0] == s[a];
      assert r[b - 1] == t[b - 1];
    }
    if IsTrimmed(s) && |s| > 0 {
      assert a == 0;
      assert t == s;
      assert b == |s|;
    }
  }

  /** `trim` removes exactly a leading and a trailing run of whitespace: a
      trimmed core between two all-whitespace pads comes back unchanged. */
  lemma TrimPadded(w1: string, m: string, w2: string)
    requires AllWhitespace(w1) && AllWhitespace(w2) && IsTrimmed(m)
    ensures Trim(w1 + m + w2) == m
  {
    var s := w1 + m + w2;
    if |m| == 0 {
      assert s == w1 + w2;
      assert forall i :: 0 <= i < |s| ==> s[i] == if i < |w1| then w1[i] else w2[i - |w1|];
      assert AllWhitespace(s);
    } else {
      var a := LeadingSpaceEnd(s, 0);
      assert s[|w1|] == m[0];
      assert forall i :: 0 <= i < |w1| ==> s[i] == w1[i];
      assert a == |w1|;
      var t := s[a..];
      assert t == m + w2;
      var b := ContentEnd(t, |t|);
      assert t[|m| - 1] == m[|m| - 1];
      assert forall i :: |m| <= i < |t| ==> t[i] == w2[i - |m|];
      assert b == |m|;
      assert t[..b] == m;
    }
  }

  /** Trimming twice is trimming once. */
  lemma TrimIdempotent(s: string)
    ensures Trim(Trim(s)) == Trim(s)
  {
  }

  /** `s.split(sep)`: the pieces between separators, at least one, none
      containing the separator. */
  function Split(s: string, sep: char): (r: seq<string>)
    ensures |r| >= 1
    ensures forall k :: 0 <= k < |r| ==> sep !in r[k]
  {
    if |s| == 0 then [""]
    else
      var rest := Split(s[1..], sep);
      if s[0] == sep then [""] + rest
      else [[s[0]] + rest[0]] + rest[1..]
  }

  /** `parts.join(sep)`: the text starts with the first piece, followed by
      the separator when there is a second piece. */
  function Join(parts: seq<string>, sep: char): (r: string)
    ensures |parts| > 0 ==> parts[0] <= r
    ensures |parts| > 1 ==> |r| > |parts[0]| && r[|parts[0]|] == sep
  {
    if |parts| == 0 then ""
    else if |parts| == 1 then parts[0]
    else parts[0] + [sep] + Join(parts[1..], sep)
  }

  /** Splitting and joining again gives back the text. */
  lemma {:induction false} JoinSplit(s: string, sep: char)
    ensures Join(Split(s, sep), sep) == s
  {
    if |s| > 0 {
      var rest := Split(s[1..], sep);
      JoinSplit(s[1..], sep);
      if s[0] == sep {
        assert ([""] + rest)[1..] == rest;
      } else {
        var parts := [[s[0]] + rest[0]] + rest[1..];
        if |rest| == 1 {
          assert parts == [[s[0]] + rest[0]];
        } else {
          assert parts[1..] == rest[1..];
          assert Join(rest, sep) == rest[0] + [sep] + Join(rest[1..], sep);
        }
        assert s == [s[0]] + s[1..];
      }
    }
  }

  /** A separator splits the text into the pieces before it and after it. */
  lemma {:induction false} SplitConcat(a: string, b: string, sep: char)
    ensures Split(a + [sep] + b, sep) == Split(a, sep) + Split(b, sep)
  {
    if |a| == 0 {
      assert a + [sep] + b == [sep] + b;
      assert ([sep] + b)[1..] == b;
    } else {
      assert (a + [sep] + b)[1..] == a[1..] + [sep] + b;
      SplitConcat(a[1..], b, sep);
    }
  }

  /** Text without the separator is a single piece. */
  lemma {:induction false} SplitNoSeparator(a: string, sep: char)
    requires sep !in a
    ensures Split(a, sep) == [a]
  {
    if |a| > 0 {
      SplitNoSeparator(a[1..], sep);
      assert a == [a[0]] + a[1..];
    }
  }

  /** Joining pieces that do not contain the separator and splitting again
      gives back the pieces. */
  lemma {:induction false} SplitJoin(parts: seq<string>, sep: char)
    requires |parts| >= 1
    requires forall k :: 0 <= k < |parts| ==> sep !in parts[k]
    ensures Split(Join(parts, sep), sep) == parts
  {
    if |parts| == 1 {
      SplitNoSeparator(parts[0], sep);
    } else {
      SplitJoin(parts[1..], sep);
      SplitConcat(parts[0], Join(parts[1..], sep), sep);
      SplitNoSeparator(parts[0], sep);
      assert parts == [parts[0]] + parts[1..];
    }
  }

  /** A name the textarea parser can produce. */
  predicate IsCleanName(n: string)
  {
    NonBlank(n) && IsTrimmed(n) && '\n' !in n
  }

  /** The `filter(n => n !== '')` test. */
  predicate NonBlank(n: string)
  {
    n != ""
  }

  /** The textarea parser: split on line feeds, trim each line, drop the
      empty ones (scripts/ui.js:25-28, repeated at 216 and 239). */
  function ParseNames(text: string): (r: seq<string>)
    ensures forall k :: 0 <= k < |r| ==> IsCleanName(r[k])
  {
    var lines := Map(Split(text, '\n'), Trim);
    LinesHaveNoFeed(Split(text, '\n'));
    var r := Filter(lines, NonBlank);
    assert forall k :: 0 <= k < |r| ==> r[k] in r;
    r
  }

  /** Trimmed pieces of a split on line feeds hold no line feed. */
  lemma LinesHaveNoFeed(pieces: seq<string>)
    requires forall k :: 0 <= k < |pieces| ==> '\n' !in pieces[k]
    ensures forall n :: n in Map(pieces, Trim) ==> IsTrimmed(n) && '\n' !in n
  {
    var lines := Map(pieces, Trim);
    forall n | n in lines
      ensures IsTrimmed(n) && '\n' !in n
    {
      var j :| 0 <= j < |lines| && lines[j] == n;
      assert CharsFrom(n, pieces[j]);
    }
  }

  /** Lines are parsed independently and keep their order. */
  lemma ParseNamesConcat(a: string, b: string)
    ensures ParseNames(a + "\n" + b) == ParseNames(a) + ParseNames(b)
  {
    SplitConcat(a, b, '\n');
    MapConcat(Split(a, '\n'), Split(b, '\n'), Trim);
    FilterConcat(Map(Split(a, '\n'), Trim), Map(Split(b, '\n'), Trim), NonBlank);
  }

  /** Writing clean names one per line and parsing the text gives back the
      same names. */
  lemma ParseJoin(names: seq<string>)
    requires forall k :: 0 <= k < |names| ==> IsCleanName(names[k])
    ensures ParseNames(Join(names, '\n')) == names
  {
    if |names| == 0 {
      ParseEmpty();
    } else {
      SplitJoin(names, '\n');
      TrimAllClean(names);
      FilterKeepsAll(names, NonBlank);
    }
  }

  /** A single line parses to nothing when it is blank and to its trimmed
      form otherwise. */
  lemma ParseLine(a: string)
    requires '\n' !in a
    ensures ParseNames(a) == if AllWhitespace(a) then [] else [Trim(a)]
  {
    SplitNoSeparator(a, '\n');
    var lines := [Trim(a)];
    assert Map([a], Trim) == lines;
    assert lines[1..] == [];
    assert Filter(lines, NonBlank) == if NonBlank(Trim(a)) then [Trim(a)] else [];
  }

  /** An empty text holds no names. */
  lemma ParseEmpty()
    ensures ParseNames("") == []
  {
    assert Split("", '\n') == [""];
    assert Trim("") == "";
    assert Map([""], Trim) == [""];
    assert !NonBlank("");
  }

  /** Trimming clean names changes none of them. */
  lemma TrimAllClean(names: seq<string>)
    requires forall k :: 0 <= k < |names| ==> IsCleanName(names[k])
    ensures Map(names, Trim) == names
  {
    forall k | 0 <= k < |names|
      ensures Map(names, Trim)[k] == names[k]
    {
      assert IsTrimmed(names[k]);
    }
  }

  /** The character for a decimal digit. */
  function DigitChar(d: nat): (c: char)
    requires d < 10
    ensures '0' <= c <= '9'
  {
    "0123456789"[d]
  }

  /** A digit character's code minus the code of '0' is the digit. */
  lemma DigitCharValue(d: nat)
    requires d < 10
    ensures DigitChar(d) as int - '0' as int == d
  {
  }

  /** Decimal rendering of a natural number, as a template literal writes it. */
  function Decimal(n: nat): (s: string)
    ensures |s| >= 1
    ensures forall i :: 0 <= i < |s| ==> '0' <= s[i] <= '9'
    ensures s[0] == '0' ==> n == 0
  {
    if n < 10 then [DigitChar(n)] else Decimal(n / 10) + [DigitChar(n % 10)]
  }

  /** The value of a string of decimal digits. */
  function DecimalValue(s: string): nat
    requires forall i :: 0 <= i < |s| ==> '0' <= s[i] <= '9'
  {
    if |s| == 0 then 0
    else 10 * DecimalValue(s[..|s| - 1]) + (s[|s| - 1] as int - '0' as int)
  }

  /** Reading a rendered number gives the number back. */
  lemma {:induction false} DecimalRoundTrip(n: nat)
    ensures DecimalValue(Decimal(n)) == n
  {
    var q := n / 10;
    var d := n % 10;
    assert n == 10 * q + d;
    DigitCharValue(d);
    if n >= 10 {
      var p := Decimal(q);
      assert Decimal(n) == p + [DigitChar(d)];
      DecimalRoundTrip(q);
      DecimalValueSnoc(p, DigitChar(d));
      assert DecimalValue(p + [DigitChar(d)]) == 10 * q + d;
    } else {
      assert Decimal(n) == [] + [DigitChar(n)];
      DecimalValueSnoc([], DigitChar(n));
    }
  }

  /** Appending a digit multiplies the value by ten and adds the digit. */
  lemma DecimalValueSnoc(p: string, c: char)
    requires forall i :: 0 <= i < |p| ==> '0' <= p[i] <= '9'
    requires '0' <= c <= '9'
    ensures DecimalValue(p + [c]) == 10 * DecimalValue(p) + (c as int - '0' as int)
  {
    assert (p + [c])[..|p|] == p;
  }
}

=== FILE: wheel.dfy ===
/** `WheelManager` (scripts/wheel.js) as an immutable engine state with pure
    transitions. Every `Math.random()` draw is a parameter in [0, 1). */
module Wheel {
  import opened Wrappers
  import opened Angles
  import opened Rotation
  import opened Selection
  import Shuffle

  /** The fixed twelve-entry palette; slot `i` is painted `Colors[i % 12]`. */
  const Colors: seq<string> := [
    "#3369e8", "#009925", "#EEB211", "#d50f25",
    "#3369e8", "#009925", "#EEB211", "#d50f25",
    "#3369e8", "#009925", "#EEB211", "#d50f25"
  ]

  /** Animation length reported with every winner, in milliseconds. */
  const SpinDuration: nat := 5000

  /** The engine state: the names on the wheel in slot order, the cumulative
      rotation in degrees, the spinning flag, the secret rigged order and the
      rigged names that have already won. */
  datatype Engine = Engine(
    names: seq<string>,
    currentRotation: real,
    isSpinning: bool,
    riggedOrder: seq<string>,
    riggedUsed: set<string>)

  /** What `spin` hands back to its caller. */
  datatype SpinResult = SpinResult(winner: string, color: string, duration: nat)

  /** The state after a spin request and its result (`None` for `null`). */
  datatype Spun = Spun(engine: Engine, result: Option<SpinResult>)

  /** The cumulative rotation never goes below zero. */
  predicate Valid(e: Engine)
  {
    e.currentRotation >= 0.0
  }

  /** Colour of slot `index`, shared by the wheel drawing and the result. */
  function SegmentColor(index: nat): (c: string)
    ensures c in Colors
  {
    Colors[index % |Colors|]
  }

  /** The palette repeats every twelve slots, and the first twelve slots take
      the twelve colours in order. */
  lemma ColorPeriodic(i: nat)
    ensures SegmentColor(i + 12) == SegmentColor(i)
    ensures i < 12 ==> SegmentColor(i) == Colors[i]
  {
  }

  /** Every name of `order` is somewhere in `names` (`order.every(n => names.includes(n))`). */
  predicate AllPresent(order: seq<string>, names: seq<string>)
  {
    forall k :: 0 <= k < |order| ==> order[k] in names
  }

  /** When replacing the names of `e` by `names` empties the rigged tracker:
      the whole non-empty rigged order is on the new wheel, or the new wheel
      is the sentinel scenario and the old one did not hold four names. */
  predicate ClearsTracker(e: Engine, names: seq<string>)
  {
    || (|e.riggedOrder| > 0 && AllPresent(e.riggedOrder, names))
    || (IsSentinelScenario(names) && |e.names| != 4)
  }

  /** `setNames` followed by `updateWheel`. `signatureDiffers` stands for the
      comparison of the sorted, `'|'`-joined old and new lists; the outcome
      does not depend on it, because a change only counts when the list
      grows. The tracker is emptied exactly as `ClearsTracker` says and kept
      otherwise; an empty list puts the rotation back to zero. */
  function SetNames(e: Engine, names: seq<string>, signatureDiffers: bool): (r: Engine)
    ensures r.names == names
    ensures r.riggedOrder == e.riggedOrder && r.isSpinning == e.isSpinning
    ensures r.riggedUsed == if ClearsTracker(e, names) then {} else e.riggedUsed
    ensures |names| == 0 ==> r.currentRotation == 0.0
    ensures |names| > 0 ==> r.currentRotation == e.currentRotation
  {
    var namesAdded := |names| > |e.names|;
    var namesChanged := signatureDiffers && namesAdded;
    var fullRiggedPresent := |e.riggedOrder| > 0 && AllPresent(e.riggedOrder, names);
    var is4WithAn := |names| == 4 && Sentinel in names;
    var used1 := if fullRiggedPresent || (namesChanged && (fullRiggedPresent || is4WithAn)) then {} else e.riggedUsed;
    var used2 := if is4WithAn && |e.names| != 4 then {} else used1;
    var used3 := if fullRiggedPresent && !AllPresent(e.riggedOrder, e.names) then {} else used2;
    var rotation := if |names| < 1 then 0.0 else e.currentRotation;
    e.(names := names, riggedUsed := used3, currentRotation := rotation)
  }

  /** `setRiggedOrder`: replaces the order and nothing else; in particular the
      names that already won stay consumed. */
  function SetRiggedOrder(e: Engine, order: seq<string>): (r: Engine)
    ensures r.riggedOrder == order
    ensures r.riggedUsed == e.riggedUsed
    ensures r.names == e.names && r.currentRotation == e.currentRotation && r.isSpinning == e.isSpinning
  {
    e.(riggedOrder := order)
  }

  /** `reset`: rotation back to zero, not spinning, no rigged name consumed;
      the names and the rigged order are kept. */
  function Reset(e: Engine): (r: Engine)
    ensures r.currentRotation == 0.0 && !r.isSpinning && r.riggedUsed == {}
    ensures r.names == e.names && r.riggedOrder == e.riggedOrder
  {
    e.(currentRotation := 0.0, isSpinning := false, riggedUsed := {})
  }

  /** A spin is refused on an empty wheel or while one is in progress. */
  predicate CanSpin(e: Engine)
  {
    |e.names| > 0 && !e.isSpinning
  }

  /** `spin` with `u1` the draw that picks the slot and `u2` the draw for the
      jitter. A refused spin returns `null` and changes nothing. Otherwise the
      wheel is marked spinning, the winner is a name on the wheel, either a
      rigged name that had not won before (now consumed) or, when no rigged
      name is eligible, a slot left to chance with the tracker untouched; the
      rotation moves forward by at least six turns, and by less than seven
      from a non-negative rotation. */
  function Spin(e: Engine, u1: real, u2: real): (r: Spun)
    requires 0.0 <= u1 < 1.0 && 0.0 <= u2 < 1.0
    ensures r.result.None? <==> !CanSpin(e)
    ensures r.result.None? ==> r.engine == e
    ensures r.result.Some? ==>
      && r.engine.isSpinning
      && r.engine.names == e.names
      && r.engine.riggedOrder == e.riggedOrder
      && r.result.value.winner in e.names
      && r.result.value.color in Colors
      && r.result.value.duration == SpinDuration
      && r.engine.currentRotation >= e.currentRotation + MinimumSpin
      && (Valid(e) ==> r.engine.currentRotation < e.currentRotation + MinimumSpin + FullTurn)
    ensures r.result.Some? ==>
      || (&& r.result.value.winner !in e.riggedUsed
          && r.engine.riggedUsed == e.riggedUsed + {r.result.value.winner})
      || (&& NoneEligible(ActiveOrder(e.names, e.riggedOrder), e.riggedUsed, e.names)
          && r.engine.riggedUsed == e.riggedUsed)
  {
    if |e.names| < 1 || e.isSpinning then Spun(e, None)
    else
      var c := Choose(e.names, e.riggedOrder, e.riggedUsed, u1);
      var used := if c.rigged then e.riggedUsed + {c.name} else e.riggedUsed;
      var rotation := NextRotation(e.currentRotation, c.index, |e.names|, u2);
      Spun(e.(isSpinning := true, riggedUsed := used, currentRotation := rotation),
           Some(SpinResult(c.name, SegmentColor(c.index), SpinDuration)))
  }

  /** Only one index of an order can be the first eligible one. */
  lemma FirstEligibleUnique(order: seq<string>, used: set<string>, names: seq<string>, k: nat, k': nat)
    requires IsFirstEligible(order, used, names, k)
    requires IsFirstEligible(order, used, names, k')
    ensures k == k'
  {
  }

  /** When the active order has a first eligible name at `k`, that name wins,
      lands on one of its own slots, and joins the consumed names. */
  lemma SpinRigged(e: Engine, u1: real, u2: real, k: nat)
    requires 0.0 <= u1 < 1.0 && 0.0 <= u2 < 1.0
    requires CanSpin(e)
    requires IsFirstEligible(ActiveOrder(e.names, e.riggedOrder), e.riggedUsed, e.names, k)
    ensures var r := Spin(e, u1, u2);
            var winner := ActiveOrder(e.names, e.riggedOrder)[k];
            && r.result == Some(SpinResult(winner, r.result.value.color, SpinDuration))
            && r.engine.riggedUsed == e.riggedUsed + {winner}
            && winner !in e.riggedUsed
  {
    var order := ActiveOrder(e.names, e.riggedOrder);
    var c := Choose(e.names, e.riggedOrder, e.riggedUsed, u1);
    assert c.rigged;
    var k': nat :| IsFirstEligible(order, e.riggedUsed, e.names, k') && order[k'] == c.name;
    FirstEligibleUnique(order, e.riggedUsed, e.names, k, k');
  }

  /** When no name of the active order is eligible, the slot is
      `floor(u1 * n)`, its name wins, and the tracker is left alone. */
  lemma SpinUnrigged(e: Engine, u1: real, u2: real)
    requires 0.0 <= u1 < 1.0 && 0.0 <= u2 < 1.0
    requires CanSpin(e)
    requires NoneEligible(ActiveOrder(e.names, e.riggedOrder), e.riggedUsed, e.names)
    ensures var r := Spin(e, u1, u2);
            var i := PickIndex(u1, |e.names|);
            && r.result == Some(SpinResult(e.names[i], SegmentColor(i), SpinDuration))
            && r.engine.riggedUsed == e.riggedUsed
  {
  }

  /** After a spin from a valid state, the slot under the pointer is the one
      the winner was reported for: the reported name is that slot's name and
      the reported colour is that slot's colour. */
  lemma SpinLandsOnWinner(e: Engine, u1: real, u2: real)
    requires 0.0 <= u1 < 1.0 && 0.0 <= u2 < 1.0
    requires CanSpin(e) && Valid(e)
    ensures var r := Spin(e, u1, u2);
            var slot := SlotUnderPointer(r.engine.currentRotation, |e.names|);
            && 0 <= slot < |e.names|
            && r.result.value.winner == e.names[slot]
            && r.result.value.color == SegmentColor(slot)
            && Mod360(r.engine.currentRotation) == TargetRotation(slot, |e.names|, u2)
  {
  }

  /** The operations a session applies to the engine. `SpinEndedOp` is the
      caller clearing `isSpinning` when the animation finishes, which happens
      outside the wheel module. */
  datatype Op =
    | SetNamesOp(names: seq<string>, signatureDiffers: bool)
    | SetRiggedOrderOp(order: seq<string>)
    | SpinOp(u1: real, u2: real)
    | SpinEndedOp
    | ResetOp

  /** Random draws lie in [0, 1). */
  predicate ValidOp(op: Op)
  {
    op.SpinOp? ==> 0.0 <= op.u1 < 1.0 && 0.0 <= op.u2 < 1.0
  }

  predicate ValidOps(ops: seq<Op>)
  {
    forall i :: 0 <= i < |ops| ==> ValidOp(ops[i])
  }

  function Apply(e: Engine, op: Op): Engine
    requires ValidOp(op)
  {
    match op
    case SetNamesOp(names, sig) => SetNames(e, names, sig)
    case SetRiggedOrderOp(order) => SetRiggedOrder(e, order)
    case SpinOp(u1, u2) => Spin(e, u1, u2).engine
    case SpinEndedOp => e.(isSpinning := false)
    case ResetOp => Reset(e)
  }

  /** The name a step makes win through the rigged pass, if any. */
  function RiggedWin(e: Engine, op: Op): Option<string>
    requires ValidOp(op)
  {
    if op.SpinOp? && CanSpin(e) then
      var c := Choose(e.names, e.riggedOrder, e.riggedUsed, op.u1);
      if c.rigged then Some(c.name) else None
    else None
  }

  /** Every operation keeps the rotation non-negative. */
  lemma ApplyValid(e: Engine, op: Op)
    requires ValidOp(op) && Valid(e)
    ensures Valid(Apply(e, op))
  {
  }

  /** The step empties the tracker: a reset, or new names that clear it. */
  predicate Clears(e: Engine, op: Op)
  {
    op.ResetOp? || (op.SetNamesOp? && ClearsTracker(e, op.names))
  }

  /** Any step that does not clear only adds to the tracker, and a rigged
      winner is a name that had not won before and is consumed afterwards. */
  lemma ApplyGrowsTracker(e: Engine, op: Op)
    requires ValidOp(op)
    requires !Clears(e, op)
    ensures e.riggedUsed <= Apply(e, op).riggedUsed
    ensures RiggedWin(e, op).Some? ==>
      RiggedWin(e, op).value !in e.riggedUsed && RiggedWin(e, op).value in Apply(e, op).riggedUsed
  {
  }

  /** The final state of a session and the rigged winners in order. */
  datatype Trace = Trace(final: Engine, riggedWins: seq<string>)

  function Run(e: Engine, ops: seq<Op>): Trace
    requires ValidOps(ops)
    decreases |ops|
  {
    if |ops| == 0 then Trace(e, [])
    else
      var next := Apply(e, ops[0]);
      var rest := Run(next, ops[1..]);
      match RiggedWin(e, ops[0])
      case Some(n) => Trace(rest.final, [n] + rest.riggedWins)
      case None => rest
  }

  /** No step of the session empties the tracker. */
  predicate Quiet(e: Engine, ops: seq<Op>)
    requires ValidOps(ops)
    decreases |ops|
  {
    |ops| == 0 || (!Clears(e, ops[0]) && Quiet(Apply(e, ops[0]), ops[1..]))
  }

  /** Between two clearings of the tracker each rigged name wins at most once:
      the rigged winners of a quiet session are pairwise distinct, none of
      them had won before the session, and all of them are consumed at its
      end. */
  lemma {:induction false} RiggedWinsAtMostOnce(e: Engine, ops: seq<Op>)
    requires ValidOps(ops)
    requires Quiet(e, ops)
    ensures var t := Run(e, ops);
            && e.riggedUsed <= t.final.riggedUsed
            && (forall i :: 0 <= i < |t.riggedWins| ==>
                  t.riggedWins[i] !in e.riggedUsed && t.riggedWins[i] in t.final.riggedUsed)
            && (forall i, j :: 0 <= i < j < |t.riggedWins| ==> t.riggedWins[i] != t.riggedWins[j])
    decreases |ops|
  {
    if |ops| > 0 {
      var next := Apply(e, ops[0]);
      ApplyGrowsTracker(e, ops[0]);
      assert ValidOps(ops[1..]);
      RiggedWinsAtMostOnce(next, ops[1..]);
      var rest := Run(next, ops[1..]);
      match RiggedWin(e, ops[0])
      case Some(n) =>
        assert Run(e, ops) == Trace(rest.final, [n] + rest.riggedWins);
      case None =>
        assert Run(e, ops) == rest;
    }
  }

  /** `reset` makes the rigged order start over: on a wheel that is not the
      sentinel scenario and holds the first rigged name, that name wins the
      next spin whatever had been consumed before. */
  lemma ResetRestartsOrder(e: Engine, u1: real, u2: real)
    requires 0.0 <= u1 < 1.0 && 0.0 <= u2 < 1.0
    requires |e.names| > 0 && !IsSentinelScenario(e.names)
    requires |e.riggedOrder| > 0 && e.riggedOrder[0] in e.names
    ensures Spin(Reset(e), u1, u2).result.value.winner == e.riggedOrder[0]
  {
    SpinRigged(Reset(e), u1, u2, 0);
  }

  /** Four names including "An" after a two-name wheel: the tracker is
      emptied and "An" wins the next spin, whatever the rigged order and
      whatever had been consumed. */
  lemma SentinelScenarioWins(rotation: real, order: seq<string>, used: set<string>, sig: bool, u1: real, u2: real)
    requires 0.0 <= u1 < 1.0 && 0.0 <= u2 < 1.0
    ensures var e := SetNames(Engine(["A", "B"], rotation, false, order, used), ["A", "B", "C", "An"], sig);
            && e.riggedUsed == {}
            && Spin(e, u1, u2).result.value.winner == "An"
  {
    var names := ["A", "B", "C", "An"];
    assert names[3] == Sentinel;
    var e := SetNames(Engine(["A", "B"], rotation, false, order, used), names, sig);
    assert IsSentinelScenario(names);
    assert IsFirstEligible(ActiveOrder(e.names, e.riggedOrder), e.riggedUsed, e.names, 0);
    SpinRigged(e, u1, u2, 0);
  }

  /** On any wheel of four names including "An", the stored rigged order is
      never read: "An" wins if it has not won yet, and otherwise the spin is
      left to chance. */
  lemma SentinelOverride(e: Engine, u1: real, u2: real)
    requires 0.0 <= u1 < 1.0 && 0.0 <= u2 < 1.0
    requires CanSpin(e) && IsSentinelScenario(e.names)
    ensures var r := Spin(e, u1, u2);
            Sentinel !in e.riggedUsed ==>
              r.result.value.winner == Sentinel && r.engine.riggedUsed == e.riggedUsed + {Sentinel}
    ensures var r := Spin(e, u1, u2);
            Sentinel in e.riggedUsed ==>
              r.result.value.winner == e.names[PickIndex(u1, 4)] && r.engine.riggedUsed == e.riggedUsed
  {
    if Sentinel !in e.riggedUsed {
      SpinRigged(e, u1, u2, 0);
    } else {
      SpinUnrigged(e, u1, u2);
    }
  }

  /** Names A, B, C, D with rigged order ["C"]: the first spin always gives
      "C"; once it is over, a second spin is left to chance over all four
      slots, "C" included (the draw 0.5 picks slot 2, which is "C"). */
  lemma RiggedThenChance(u1: real, u2: real, u3: real)
    requires 0.0 <= u1 < 1.0 && 0.0 <= u2 < 1.0 && 0.0 <= u3 < 1.0
    ensures var e := Engine(["A", "B", "C", "D"], 0.0, false, ["C"], {});
            var first := Spin(e, u1, u2);
            var second := Spin(first.engine.(isSpinning := false), 0.5, u3);
            && first.result.value.winner == "C"
            && first.engine.riggedUsed == {"C"}
            && second.result.value.winner == "C"
            && second.engine.riggedUsed == {"C"}
  {
    var names := ["A", "B", "C", "D"];
    var e := Engine(names, 0.0, false, ["C"], {});
    assert names[2] == "C";
    assert !IsSentinelScenario(names) by {
      assert names[0] != Sentinel && names[1] != Sentinel && names[2] != Sentinel && names[3] != Sentinel;
    }
    assert IsFirstEligible(ActiveOrder(names, ["C"]), {}, names, 0);
    SpinRigged(e, u1, u2, 0);
    var e2 := Spin(e, u1, u2).engine.(isSpinning := false);
    assert NoneEligible(ActiveOrder(e2.names, e2.riggedOrder), e2.riggedUsed, e2.names);
    assert PickIndex(0.5, 4) == 2;
    SpinUnrigged(e2, 0.5, u3);
  }

  /** `shuffleColors`: a shuffled copy of the palette, using eleven draws;
      the palette itself is a constant and stays as it is. */
  method ShuffleColors(draws: seq<real>) returns (r: seq<string>)
    requires |draws| >= |Colors| - 1
    requires forall k :: 0 <= k < |draws| ==> 0.0 <= draws[k] < 1.0
    ensures |r| == |Colors|
    ensures multiset(r) == multiset(Colors)
  {
    r := Shuffle.FisherYates(Colors, draws);
  }
}

=== FILE: wrappers.dfy ===
/** The optional value used wherever the wheel returns `null` or a search finds nothing. */
module Wrappers {

  datatype Option<+T> = None | Some(value: T)
}
